=== FILE: README.md ===
# Recipe endpoint model

A Dafny model of the `POST /get_recipe` handler of the accessible AI recipe
service (`main.py`). The handler takes a JSON body describing the cook's
ingredients and constraints, turns it into a natural-language prompt, asks a
hosted chat-completion service for three recipes, strips Markdown code fences
from the reply, parses it as JSON and answers with `{"recipes": …}` or
`{"error": …}`.

The model is a pipeline of pure functions over immutable datatypes:

- `RecipeRequest` (request.dfy): the request body (`Request`; an absent key is
  `None`), the selected-ingredient filter over `selectedTags` (a sequence of
  name/flag pairs standing for the insertion-ordered JSON object), and the
  defaults applied to missing fields (`Normalise`).
- `RecipePrompt` (prompt.dfy): the fixed prompt template, one line per field,
  with lists joined by `", "` and empty lists replaced by `None`, `Any`, `Any`
  and `Basic`.
- `Cleaning` (cleaning.dfy): `strip()`, delete every "```json", delete every
  "```", `strip()` again.
- `RecipeHandler` (handler.dfy): the `try` block and its two `except` clauses,
  producing the status the handler returns with, the payload and the
  prompts passed to the completion client.
- Supporting modules: `Substrings` (prefix/infix tests and
  `str.replace(p, "")`), `Whitespace` (`str.strip()`; its functions and
  lemmas take the whitespace test as a parameter, and `Strip` supplies
  CPython's exact whitespace set), `Joining` (`sep.join` and the split that reads it back),
  `Decimal` (`str()` of an integer), `Optional`.

The completion service, `json.loads` and Python's `str()` of an exception are
outside the model; the handler receives them as function parameters
(`complete`, `parse`, `str`), so every property holds whatever they do.
`complete` may fail with any exception the handler's `except` clauses can
see, a `JSONDecodeError` included, and the handler maps it by its type.

An empty ingredient list raises `HTTPException(400, "No valid ingredients
provided.")` at main.py:53, but that raise sits inside the `try` opened at
main.py:34, and the generic `except Exception` at main.py:87 catches it. The
handler therefore returns status 200 with
`{"error": "OpenAI API Error: " + str(exception)}`, not a 400. The model
follows the code: the handler itself never returns with a status other than
200, and `GetRecipe` reports the refusal through the generic error text.

## Model

| member | source | states |
|---|---|---|
| RecipeRequest.SelectedIngredients | main.py:45 | a name is kept exactly when it is paired with a true flag; the result is no longer than the tag list |
| RecipeRequest.SelectedAppend | main.py:45 | filtering a concatenation is the concatenation of the filtered parts, so tag order is kept |
| RecipeRequest.SelectedIsSubsequence | main.py:45 | the ingredient list is a subsequence of the tag names in object order |
| RecipeRequest.SelectedDistinct | main.py:45 | distinct tag names give an ingredient list without repeats |
| RecipeRequest.NoFlagNothingSelected | main.py:45 | when every flag is false the ingredient list is empty |
| RecipeRequest.Normalise | main.py:37-45 | missing tags give no ingredients, a missing time limit is 40, missing lists are empty, present fields are used as given |
| Joining.Join | main.py:58-63 | the joined text holds no character found in neither the separator nor an element; one element joins to itself |
| Joining.SplitJoin | main.py:58-63 | splitting the joined text at the separator gives back the elements when none holds the separator's first character |
| Joining.JoinSnoc | main.py:58-63 | appending an element appends the separator and that element, so order is kept |
| Decimal.IntToDecimal | main.py:59 | the time limit renders as digits with a leading '-' exactly for negative values, with no leading zero: a non-negative value starting with '0' is zero itself, and a negative one has no '0' after the sign |
| Decimal.IntRoundTrip | main.py:59 | reading the rendered time limit back gives the original integer |
| RecipePrompt.Prompt | main.py:56-69 | when no value holds a line break, the prompt splits at line breaks into the template's fourteen lines |
| RecipePrompt.IngredientsReadBack | main.py:58 | the ingredient list can be read back from its prompt line when the list is non-empty, no ingredient holds a comma and no element of any input list holds a line break |
| RecipePrompt.RenderReadBack | main.py:60-63 | a rendered list field reads back as the list, or as its fallback word when the list is empty, provided neither an element nor the fallback holds a comma |
| RecipePrompt.OptionalListsReadBack | main.py:60-63 | preferences, cuisines, equipment and seasonings read back from their lines, an empty one as None, Any, Any or Basic, provided no element of these lists holds a comma and no element of any input list holds a line break |
| RecipePrompt.TimeLimitReadBack | main.py:59 | the time-limit line is the label, the limit in decimal and " minutes", and the number parses back to the limit |
| RecipePrompt.DefaultFieldLines | main.py:59-63 | with the default time limit and every optional list empty, the field lines read 40 minutes, None, Any, Any and Basic |
| RecipePrompt.MissingFieldsPrompt | main.py:37-63 | a body without the optional fields yields the lines 40 minutes, None, Any, Any and Basic |
| Substrings.RemoveAll | main.py:79 | deleting a pattern never lengthens the text, shortens it exactly when the pattern occurs, and leaves pattern-free text unchanged |
| Substrings.RemoveLeftmost | main.py:79 | the leftmost occurrence is deleted, the text before it is kept, and deletion resumes right after it; with the pattern-free case this fixes what `str.replace(p, "")` keeps on every input |
| Whitespace.TrimLeftParts | main.py:79 | left-trimming returns a suffix of the input that does not start with whitespace, and everything it drops is whitespace |
| Whitespace.TrimRightParts | main.py:79 | right-trimming returns a prefix of the input that does not end with whitespace, and everything it drops is whitespace |
| Whitespace.StripParts | main.py:79 | the stripped text has no whitespace at either end, and the input is whitespace, then the stripped text, then whitespace |
| Whitespace.StripUnique | main.py:79 | any text without whitespace at its ends, padded only by whitespace, is exactly what strip returns |
| Whitespace.StripIdempotent | main.py:79 | stripping twice is stripping once |
| Whitespace.StripPadded | main.py:79 | whitespace added around a text does not change its stripped form |
| Cleaning.CleanResult | main.py:78-79 | the cleaned reply has no whitespace at either end and contains no "```" |
| Cleaning.FenceRemovalLeavesNone | main.py:79 | deleting every "```" cannot splice a new "```" together |
| Cleaning.CleanFenceFree | main.py:79 | a reply containing no "```" is only stripped |
| Cleaning.CleanIdempotent | main.py:79 | cleaning twice is cleaning once |
| Cleaning.CleanIgnoresPadding | main.py:79 | whitespace around a reply never reaches the parser |
| Cleaning.CleanFenced | main.py:78-79 | "```json\n" + t + "\n```" cleans to the same text as t, which is t stripped, whenever t holds no "```" |
| RecipeHandler.GetRecipe | main.py:32-88 | the handler itself always returns with status 200; the completion client is called at most once, with the prompt built from the normalised body, and not at all exactly when no ingredient is selected, in which case the payload is "OpenAI API Error: " + the text of the handler's own HTTPException(400) |
| RecipeHandler.ServiceOutcome | main.py:71-88 | once the completion client is called, a JSONDecodeError raised by the client gives the invalid-JSON message and any other client exception gives "OpenAI API Error: " + its text; a cleaned reply that parses gives the recipes, one that does not parse gives the invalid-JSON message, and recipes come back exactly in the parsing case |
| RecipeHandler.NothingSelectedRefused | main.py:37-53 | a missing or all-false selectedTags sends nothing and yields "OpenAI API Error: " + the text of HTTPException(400, "No valid ingredients provided.") |
| RecipeHandler.RefusalIndependentOfService | main.py:52-76 | with no selected ingredient the response does not depend on the completion service or the parser |
| RecipeHandler.SameCleanSameResponse | main.py:76-84 | two replies that clean to the same text give the same response |
| RecipeHandler.FencedReplyAgrees | main.py:76-84 | a reply wrapped in a ```json fence gives the same response as the bare reply, when the bare reply itself holds no ``` |
| RecipeHandler.InvalidJsonDistinguishable | main.py:71-88 | the payload is the invalid-JSON message exactly when a JSONDecodeError was raised, by the client or by parsing the cleaned reply; no other failure produces it |

## Left out

- FastAPI application, CORS middleware and the uvicorn entry point (main.py:23-30, 90-91): framework configuration with no logic of the handler's own.
- Loading `.env` and the API-key check (main.py:11-18): environment I/O at process start.
- The OpenAI client and the `chat.completions.create` call (main.py:21, 71-76): a network service; the handler takes it as the parameter `complete`, which returns the message text or the exception it raised (a `JSONDecodeError` of the client's own is caught by main.py:85 like one from parsing; any other exception is `ClientException`). The model name and the system-role message shape are not modelled. A `None` message content (whose `.strip()` raises) is covered by `complete` returning `Failed`.
- The internals of `json.loads` (main.py:82): a library parser, taken as the parameter `parse`; `None` stands for `JSONDecodeError`. Other exceptions the parser could raise are not modelled.
- Python's `str()` of an exception (main.py:88): library-defined text, taken as the parameter `str`.
- The debug `print` calls (main.py:48-49) and the read-but-unused `fridgeItems` (main.py:36): no effect on the response.
- Dynamic typing failures: a non-object `selectedTags`, non-list list fields, non-boolean flags (Python keeps any truthy value) and a non-integer `time_limit` (which Python would interpolate with `str()`); the request is typed instead.
- Duplicate keys in `selectedTags`: a JSON object cannot repeat a key once parsed; only `SelectedDistinct` relies on distinct names.
- RecipeHandler.GetRecipe: the status is the one the handler returns with. Encoding the payload happens in the framework after the handler returns, and is not modelled. `json.loads` accepts `NaN`, `Infinity` and overflowing literals such as `1e999`, and a parsed value holding such a float cannot be encoded as JSON. The caller then receives a 500 instead of the modelled 200. The parsed value is opaque (`J`), so the model cannot tell these values apart.
- RecipeHandler.GetRecipe: `sent` records calls of the completion client, not network requests; retries inside the client library are not modelled.
- Substrings.RemoveAll: requires a non-empty pattern, because the handler only deletes the two non-empty fence markers.
- test.py: a script that lists the service's models over the network; nothing pure in it.

=== FILE: cleaning.dfy ===
/** Sanitising the completion text before it is parsed as JSON
    (main.py line 79): strip, delete every "```json", delete every "```",
    strip again. */
module Cleaning {
  import opened Substrings
  import opened Whitespace

  const Fence := "```"
  const JsonFence := "```json"

  /** The four cleaning steps in order; `CleanResult` states what they
      guarantee. */
  function Clean(raw: string): string
  {
    Strip(RemoveAll(RemoveAll(Strip(raw), JsonFence), Fence))
  }

  /** The cleaned text is trimmed at both ends and holds no code fence. */
  lemma CleanResult(raw: string)
    ensures Trimmed(Clean(raw), IsSpace)
    ensures !HasInfix(Clean(raw), Fence)
  {
    var noJson := RemoveAll(Strip(raw), JsonFence);
    var noFence := RemoveAll(noJson, Fence);
    StripParts(noFence, IsSpace);
    FenceRemovalLeavesNone(noJson);
    StripKeepsInfixFree(noFence, Fence);
  }

  /** Stripping a string without `p` leaves a string without `p`. */
  lemma StripKeepsInfixFree(s: string, p: string)
    requires !HasInfix(s, p)
    ensures !HasInfix(Strip(s), p)
  {
    var r := Strip(s);
    var a := LeadingSpace(s, IsSpace);
    StripParts(s, IsSpace);
    assert s[|a|..|a| + |r|] == r;
    InfixFreeSlice(s, |a|, |a| + |r|, p);
  }

  /** Deleting every "```" cannot splice a new "```" together: a character
      kept in front of a deleted fence is never a backtick run of three. */
  lemma {:induction false} FenceRemovalLeavesNone(s: string)
    ensures !HasInfix(RemoveAll(s, Fence), Fence)
    decreases |s|
  {
    if s == [] {
    } else if StartsWith(s, Fence) {
      FenceRemovalLeavesNone(s[3..]);
    } else {
      var rest := RemoveAll(s[1..], Fence);
      FenceRemovalLeavesNone(s[1..]);
      var r := [s[0]] + rest;
      assert r[1..] == rest;
      if s[0] == '`' && |s| >= 3 {
        if s[1] != '`' {
          assert !StartsWith(s[1..], Fence);
          assert rest[0] == s[1];
        } else {
          assert s[2] != '`';
          assert !StartsWith(s[1..], Fence);
          assert s[1..][1..] == s[2..];
          assert !StartsWith(s[2..], Fence);
          assert rest[1] == s[2];
        }
      }
    }
  }

  /** Inside fence-free text followed by a newline, no "```" starts. */
  lemma NoBareFenceBeforeNewline(t: string, w: string, k: nat)
    requires !HasInfix(t, Fence)
    requires k <= |t|
    ensures !StartsWith((t + "\n" + w)[k..], Fence)
  {
    var s := (t + "\n" + w)[k..];
    if k + 3 <= |t| {
      NoInfixNoStart(t, Fence, k);
      assert t[k..][..3] == s[..3];
    } else {
      var m := |t| - k;
      assert s[m] == '\n' != Fence[m];
    }
  }

  /** Nor does any longer pattern opening with "```". */
  lemma NoFenceBeforeNewline(t: string, w: string, p: string, k: nat)
    requires !HasInfix(t, Fence)
    requires StartsWith(p, Fence)
    requires k <= |t|
    ensures !StartsWith((t + "\n" + w)[k..], p)
  {
    NoBareFenceBeforeNewline(t, w, k);
    var s := (t + "\n" + w)[k..];
    if |p| <= |s| {
      assert s[..|p|][..|Fence|] == s[..|Fence|] != Fence == p[..|Fence|];
    }
  }

  /** Deleting a "```"-led pattern from newline-framed fence-free text
      only affects what follows the closing newline. */
  lemma FramedRemoval(t: string, w: string, p: string)
    requires !HasInfix(t, Fence)
    requires StartsWith(p, Fence)
    ensures RemoveAll("\n" + t + "\n" + w, p) == "\n" + t + "\n" + RemoveAll(w, p)
  {
    var a := "\n" + t + "\n";
    var x := t + "\n" + w;
    assert a + w == "\n" + x;
    forall k | 0 <= k < |a|
      ensures !StartsWith((a + w)[k..], p)
    {
      if k > 0 {
        assert (a + w)[k..] == x[k - 1..];
        NoFenceBeforeNewline(t, w, p, k - 1);
      } else {
        assert (a + w)[k..][0] == '\n' != p[0];
      }
    }
    RemoveAllKeepsPrefix(a, w, p);
  }

  /** Text that carries no fence is only stripped. */
  lemma {:induction false} CleanFenceFree(t: string)
    requires !HasInfix(t, Fence)
    ensures Clean(t) == Strip(t)
  {
    var s := Strip(t);
    StripKeepsInfixFree(t, Fence);
    if HasInfix(s, JsonFence) {
      InfixOfLonger(s, Fence, JsonFence);
    }
    assert RemoveAll(s, JsonFence) == s;
    assert RemoveAll(s, Fence) == s;
    StripIdempotent(t, IsSpace);
  }

  /** Cleaning twice is cleaning once. */
  lemma CleanIdempotent(t: string)
    ensures Clean(Clean(t)) == Clean(t)
  {
    var c := Clean(t);
    CleanResult(t);
    CleanFenceFree(c);
    StripTrimmed(c, IsSpace);
  }

  /** Whitespace around a reply never reaches the parser. */
  lemma CleanIgnoresPadding(x: string, t: string, y: string)
    requires AllIn(x, IsSpace) && AllIn(y, IsSpace)
    ensures Clean(x + t + y) == Clean(t)
  {
    StripPadded(x, t, y, IsSpace);
  }

  /** Both deletions applied to a ```json-fenced fence-free text leave only
      the newlines that framed it. */
  lemma UnfenceFramed(t: string)
    requires !HasInfix(t, Fence)
    ensures RemoveAll(RemoveAll(JsonFence + "\n" + t + "\n" + Fence, JsonFence), Fence)
            == "\n" + t + "\n"
  {
    JsonFenceDeleted(t);
    ClosingFenceDeleted(t);
  }

  /** Deleting "```json" removes only the opening fence. */
  lemma JsonFenceDeleted(t: string)
    requires !HasInfix(t, Fence)
    ensures RemoveAll(JsonFence + "\n" + t + "\n" + Fence, JsonFence) == "\n" + t + "\n" + Fence
  {
    var v := "\n" + t + "\n" + Fence;
    assert JsonFence + "\n" + t + "\n" + Fence == JsonFence + v;
    assert (JsonFence + v)[|JsonFence|..] == v;
    FramedRemoval(t, Fence, JsonFence);
    assert !StartsWith(Fence, JsonFence);
  }

  /** Deleting "```" then removes the closing fence. */
  lemma ClosingFenceDeleted(t: string)
    requires !HasInfix(t, Fence)
    ensures RemoveAll("\n" + t + "\n" + Fence, Fence) == "\n" + t + "\n"
  {
    FramedRemoval(t, Fence, Fence);
    assert RemoveAll(Fence, Fence) == [];
    assert "\n" + t + "\n" + [] == "\n" + t + "\n";
  }

  lemma FencedIsTrimmed(t: string)
    ensures Trimmed(JsonFence + "\n" + t + "\n" + Fence, IsSpace)
  {
    var u := JsonFence + "\n" + t + "\n" + Fence;
    assert u[0] == '`' && u[|u| - 1] == '`';
    BacktickIsNotSpace();
  }

  /** A reply wrapped in a ```json fence cleans to the same text as the bare
      reply, which is the bare reply stripped. */
  lemma CleanFenced(t: string)
    requires !HasInfix(t, Fence)
    ensures Clean(JsonFence + "\n" + t + "\n" + Fence) == Clean(t) == Strip(t)
  {
    var u := JsonFence + "\n" + t + "\n" + Fence;
    FencedIsTrimmed(t);
    StripTrimmed(u, IsSpace);
    UnfenceFramed(t);
    assert AllIn("\n", IsSpace) by {
      NewlineIsSpace();
    }
    StripPadded("\n", t, "\n", IsSpace);
    CleanFenceFree(t);
  }
}

=== FILE: decimal.dfy ===
/** Python's `str()` of an integer, as used when the time limit is
    interpolated into the prompt: canonical decimal digits, with a leading
    '-' for negative values. */
module Decimal {

  predicate IsDigit(c: char) {
    '0' <= c <= '9'
  }

  function DigitChar(d: nat): (c: char)
    requires d < 10
    ensures IsDigit(c)
  {
    "0123456789"[d]
  }

  function DigitValue(c: char): (d: nat)
    requires IsDigit(c)
    ensures d < 10
  {
    (c as int) - ('0' as int)
  }

  /** Canonical decimal form of a natural number: only digits, and no
      leading zero unless the number is zero. */
  function NatToDecimal(n: nat): (r: string)
    ensures |r| >= 1
    ensures forall i :: 0 <= i < |r| ==> IsDigit(r[i])
    ensures r[0] == '0' ==> n == 0
    decreases n
  {
    if n < 10 then [DigitChar(n)]
    else NatToDecimal(n / 10) + [DigitChar(n % 10)]
  }

  /** Python's `str(n)`: an optional '-', then digits with no leading
      zero, so only zero itself is written "0". */
  function IntToDecimal(n: int): (r: string)
    ensures |r| >= 1
    ensures r[0] == '-' <==> n < 0
    ensures r[0] == '-' || IsDigit(r[0])
    ensures forall i :: 0 < i < |r| ==> IsDigit(r[i])
    ensures n >= 0 && r[0] == '0' ==> r == "0"
    ensures n < 0 ==> |r| >= 2 && r[1] != '0'
  {
    if n < 0 then
      var d := NatToDecimal(-n);
      assert ("-" + d)[1..] == d;
      "-" + d
    else
      NatToDecimal(n)
  }

  /** Reads a digit string (most significant first). */
  function DecimalValue(s: string): nat
    requires forall i :: 0 <= i < |s| ==> IsDigit(s[i])
    decreases |s|
  {
    if s == [] then 0
    else DecimalValue(s[..|s| - 1]) * 10 + DigitValue(s[|s| - 1])
  }

  /** Reads an optionally signed digit string. */
  function SignedValue(s: string): int
    requires |s| >= 1
    requires forall i :: 0 < i < |s| ==> IsDigit(s[i])
    requires s[0] == '-' || IsDigit(s[0])
  {
    if s[0] == '-' then -(DecimalValue(s[1..]) as int) else DecimalValue(s)
  }

  lemma {:induction false} NatRoundTrip(n: nat)
    ensures DecimalValue(NatToDecimal(n)) == n
    decreases n
  {
    var r := NatToDecimal(n);
    if n < 10 {
      assert DigitValue(DigitChar(n)) == n;
    } else {
      NatRoundTrip(n / 10);
      assert r[..|r| - 1] == NatToDecimal(n / 10);
      assert DigitValue(DigitChar(n % 10)) == n % 10;
    }
  }

  /** Reading back the rendered integer gives the integer. */
  lemma IntRoundTrip(n: int)
    ensures SignedValue(IntToDecimal(n)) == n
  {
    if n < 0 {
      NatRoundTrip(-n);
      assert IntToDecimal(n)[1..] == NatToDecimal(-n);
    } else {
      NatRoundTrip(n);
    }
  }
}

=== FILE: handler.dfy ===
/** The `get_recipe` request handler (main.py lines 32-88): normalise the
    body, refuse an empty ingredient list, build the prompt, call the
    completion service once, clean its reply, parse it as JSON and map the
    outcome to the response payload.

    The completion service, `json.loads` and Python's `str()` of an
    exception are not modelled; the handler receives them as functions. */
module RecipeHandler {
  import opened Optional
  import opened Substrings
  import opened Cleaning
  import opened RecipeRequest
  import opened RecipePrompt

  /** What the completion call produces: the first choice's message text,
      or the exception the client raised. A client can raise a JSON decode
      error of its own, which the handler's first `except` clause catches
      by its type like the one from parsing the reply. */
  datatype Reply = Content(text: string) | Failed(exception: Raised)

  /** The exceptions that can reach the handler's `except` clauses;
      `ClientException` stands for any other exception the client raises. */
  datatype Raised =
    | HttpException(status: int, detail: string)
    | JsonDecodeError
    | ClientException(description: string)

  /** How the `try` block ends: with the parsed JSON value, or by raising. */
  datatype Attempt<J> = Returned(value: J) | Threw(exception: Raised)

  /** The JSON object returned: `{"recipes": …}` or `{"error": …}`. */
  datatype Payload<J> = Recipes(recipes: J) | Error(error: string)

  /** The response the handler returns, and the prompts it passed to the
      completion client while producing it (one entry per call of the
      client; retries inside the client library are not visible here). */
  datatype Response<J> = Response(status: int, payload: Payload<J>, sent: seq<string>)

  const OkStatus := 200
  const BadRequestStatus := 400
  const NoIngredientsDetail := "No valid ingredients provided."
  const InvalidJsonMessage := "Invalid JSON format received from OpenAI"
  const ApiErrorPrefix := "OpenAI API Error: "

  /** The `try` block of the handler, with the prompts it sends. */
  function TryBlock<J>(req: Request, complete: string -> Reply, parse: string -> Option<J>)
    : (Attempt<J>, seq<string>)
  {
    var inp := Normalise(req);
    if inp.ingredients == [] then
      (Threw(HttpException(BadRequestStatus, NoIngredientsDetail)), [])
    else
      var prompt := Prompt(inp);
      match complete(prompt)
      case Failed(e) => (Threw(e), [prompt])
      case Content(text) =>
        match parse(Clean(text))
        case Some(v) => (Returned(v), [prompt])
        case None => (Threw(JsonDecodeError), [prompt])
  }

  /** The `except` clauses: the JSON decode error first, then every other
      exception, including the handler's own HTTP 400. */
  function Catch<J>(a: Attempt<J>, str: Raised -> string): Payload<J>
  {
    match a
    case Returned(v) => Recipes(v)
    case Threw(JsonDecodeError) => Error(InvalidJsonMessage)
    case Threw(e) => Error(ApiErrorPrefix + str(e))
  }

  /** The endpoint. The handler itself never returns with a status other
      than 200; the completion client is called at most once, with the
      prompt built from the normalised body, and not at all when no
      ingredient is selected, in which case the payload carries the
      handler's own 400 through the generic error message. */
  function GetRecipe<J>(req: Request, complete: string -> Reply,
                        parse: string -> Option<J>, str: Raised -> string)
    : (resp: Response<J>)
    ensures resp.status == OkStatus
    ensures |resp.sent| <= 1
    ensures resp.sent == [] <==> Normalise(req).ingredients == []
    ensures resp.sent != [] ==> resp.sent == [Prompt(Normalise(req))]
    ensures resp.sent == [] ==>
      resp.payload == Error(ApiErrorPrefix + str(HttpException(BadRequestStatus, NoIngredientsDetail)))
  {
    var (a, sent) := TryBlock(req, complete, parse);
    Response(OkStatus, Catch(a, str), sent)
  }

  /** Once the completion client is called, the payload follows its
      answer: a JSON decode error from the client gives the invalid-JSON
      message and any other client failure the generic message; a reply
      whose cleaned text parses gives the recipes, and one that does not
      parse gives the invalid-JSON message. Recipes come back only when the reply parsed. */
  lemma ServiceOutcome<J>(req: Request, complete: string -> Reply,
                          parse: string -> Option<J>, str: Raised -> string)
    requires Normalise(req).ingredients != []
    ensures var reply := complete(Prompt(Normalise(req)));
      var payload := GetRecipe(req, complete, parse, str).payload;
      && (reply.Failed? && reply.exception == JsonDecodeError ==> payload == Error(InvalidJsonMessage))
      && (reply.Failed? && reply.exception != JsonDecodeError ==>
            payload == Error(ApiErrorPrefix + str(reply.exception)))
      && (reply.Content? && parse(Clean(reply.text)).Some? ==>
            payload == Recipes(parse(Clean(reply.text)).value))
      && (reply.Content? && parse(Clean(reply.text)).None? ==> payload == Error(InvalidJsonMessage))
      && (payload.Recipes? <==> reply.Content? && parse(Clean(reply.text)).Some?)
  {
    var prompt := Prompt(Normalise(req));
    var attempt := TryBlock(req, complete, parse).0;
    match complete(prompt)
    case Failed(e) =>
      assert attempt == Threw(e);
    case Content(text) =>
      assert attempt == if parse(Clean(text)).Some? then Returned(parse(Clean(text)).value)
                        else Threw(JsonDecodeError);
  }

  /** A body whose `selectedTags` is missing, or selects nothing, is refused
      before the completion service is asked anything, and the refusal
      comes back through the generic error message. */
  lemma NothingSelectedRefused<J>(req: Request, complete: string -> Reply,
                                  parse: string -> Option<J>, str: Raised -> string)
    requires req.selectedTags.Some? ==>
      forall i :: 0 <= i < |req.selectedTags.value| ==> !req.selectedTags.value[i].1
    ensures GetRecipe(req, complete, parse, str).sent == []
    ensures GetRecipe(req, complete, parse, str).payload
      == Error(ApiErrorPrefix + str(HttpException(BadRequestStatus, NoIngredientsDetail)))
  {
    if req.selectedTags.Some? {
      NoFlagNothingSelected(req.selectedTags.value);
    }
  }

  /** When nothing is selected the response does not depend on the
      completion service or the parser at all. */
  lemma RefusalIndependentOfService<J>(req: Request,
                                       complete1: string -> Reply, complete2: string -> Reply,
                                       parse1: string -> Option<J>, parse2: string -> Option<J>,
                                       str: Raised -> string)
    requires Normalise(req).ingredients == []
    ensures GetRecipe(req, complete1, parse1, str) == GetRecipe(req, complete2, parse2, str)
  {
  }

  /** Two replies that clean to the same text give the same response. */
  lemma SameCleanSameResponse<J>(req: Request, a: string, b: string,
                                 replyA: string -> Reply, replyB: string -> Reply,
                                 parse: string -> Option<J>, str: Raised -> string)
    requires Clean(a) == Clean(b)
    requires Normalise(req).ingredients != []
    requires replyA(Prompt(Normalise(req))) == Content(a)
    requires replyB(Prompt(Normalise(req))) == Content(b)
    ensures GetRecipe(req, replyA, parse, str) == GetRecipe(req, replyB, parse, str)
  {
    assert TryBlock(req, replyA, parse) == TryBlock(req, replyB, parse);
  }

  /** A reply wrapped in a ```json fence gives the same response as the bare
      reply, provided the bare reply carries no fence of its own. */
  lemma FencedReplyAgrees<J>(req: Request, t: string,
                             bare: string -> Reply, fenced: string -> Reply,
                             parse: string -> Option<J>, str: Raised -> string)
    requires !HasInfix(t, Fence)
    requires Normalise(req).ingredients != []
    requires bare(Prompt(Normalise(req))) == Content(t)
    requires fenced(Prompt(Normalise(req))) == Content(JsonFence + "\n" + t + "\n" + Fence)
    ensures GetRecipe(req, fenced, parse, str) == GetRecipe(req, bare, parse, str)
  {
    CleanFenced(t);
    SameCleanSameResponse(req, JsonFence + "\n" + t + "\n" + Fence, t, fenced, bare, parse, str);
  }

  /** The invalid-JSON message comes exactly from a JSON decode error,
      raised by the client or by parsing the cleaned reply; it cannot be
      mistaken for any other failure, which carries the generic prefix. */
  lemma InvalidJsonDistinguishable<J>(req: Request, complete: string -> Reply,
                                      parse: string -> Option<J>, str: Raised -> string)
    ensures var p := GetRecipe(req, complete, parse, str).payload;
      var reply := complete(Prompt(Normalise(req)));
      p == Error(InvalidJsonMessage) <==>
        && Normalise(req).ingredients != []
        && (|| reply == Failed(JsonDecodeError)
            || (reply.Content? && parse(Clean(reply.text)).None?))
  {
    assert !StartsWith(InvalidJsonMessage, ApiErrorPrefix) by {
      assert InvalidJsonMessage[0] != ApiErrorPrefix[0];
    }
    var p := GetRecipe(req, complete, parse, str).payload;
    if p.Error? && p.error == InvalidJsonMessage {
      forall e: Raised
        ensures InvalidJsonMessage != ApiErrorPrefix + str(e)
      {
        assert (ApiErrorPrefix + str(e))[0] == 'O';
      }
    }
  }
}

=== FILE: joining.dfy ===
/** Python's `sep.join(xs)`, and the splitting that reads such a text back. */
module Joining {
  import opened Substrings

  /** No element of `xs` contains the character `c`. */
  predicate NoneContain(xs: seq<string>, c: char) {
    forall i :: 0 <= i < |xs| ==> c !in xs[i]
  }

  /** The elements of `xs` with `sep` between each adjacent pair; a
      character found neither in `sep` nor in any element is not in the
      result. */
  function Join(xs: seq<string>, sep: string): (r: string)
    ensures forall c :: c !in sep && NoneContain(xs, c) ==> c !in r
    ensures |xs| == 1 ==> r == xs[0]
    decreases |xs|
  {
    if |xs| == 0 then ""
    else if |xs| == 1 then xs[0]
    else xs[0] + sep + Join(xs[1..], sep)
  }

  /** Cuts `s` at every occurrence of `sep`, leftmost first (Python's
      `s.split(sep)`). */
  function Split(s: string, sep: string): (r: seq<string>)
    requires |sep| > 0
    ensures |r| >= 1
    decreases |s|
  {
    if StartsWith(s, sep) then [""] + Split(s[|sep|..], sep)
    else if s == [] then [""]
    else
      var rest := Split(s[1..], sep);
      [[s[0]] + rest[0]] + rest[1..]
  }

  /** A piece without the separator's first character is not cut. */
  lemma {:induction false} SplitWhole(x: string, sep: string)
    requires |sep| > 0 && sep[0] !in x
    ensures Split(x, sep) == [x]
    decreases |x|
  {
    if x != [] {
      SplitWhole(x[1..], sep);
      assert [x[0]] + x[1..] == x;
    }
  }

  /** The first cut falls at the end of a separator-free first piece. */
  lemma {:induction false} SplitAfter(x: string, sep: string, rest: string)
    requires |sep| > 0 && sep[0] !in x
    ensures Split(x + sep + rest, sep) == [x] + Split(rest, sep)
    decreases |x|
  {
    var s := x + sep + rest;
    if x == [] {
      assert s == sep + rest;
      assert StartsWith(s, sep);
      assert s[|sep|..] == rest;
    } else {
      assert s[0] == x[0] != sep[0];
      assert s[1..] == x[1..] + sep + rest;
      SplitAfter(x[1..], sep, rest);
      assert [x[0]] + x[1..] == x;
    }
  }

  /** Splitting undoes joining when no element holds the separator's first
      character. */
  lemma {:induction false} SplitJoin(xs: seq<string>, sep: string)
    requires |xs| >= 1 && |sep| > 0
    requires NoneContain(xs, sep[0])
    ensures Split(Join(xs, sep), sep) == xs
    decreases |xs|
  {
    if |xs| == 1 {
      SplitWhole(xs[0], sep);
    } else {
      SplitAfter(xs[0], sep, Join(xs[1..], sep));
      SplitJoin(xs[1..], sep);
      assert [xs[0]] + xs[1..] == xs;
    }
  }

  /** Joining is order-preserving concatenation: appending an element
      appends the separator and that element. */
  lemma {:induction false} JoinSnoc(xs: seq<string>, y: string, sep: string)
    requires |xs| >= 1
    ensures Join(xs + [y], sep) == Join(xs, sep) + sep + y
    decreases |xs|
  {
    if |xs| == 1 {
      assert (xs + [y])[1..] == [y];
    } else {
      assert (xs + [y])[1..] == xs[1..] + [y];
      JoinSnoc(xs[1..], y, sep);
    }
  }
}

=== FILE: optional.dfy ===
/** The absent-or-present wrapper used for optional request fields and for
    the outcome of the JSON parser. */
module Optional {

  datatype Option<+T> = None | Some(value: T) {

    /** The wrapped value, or `default` when absent (Python's `dict.get(key, default)`). */
    function GetOr(default: T): T {
      match this
      case Some(v) => v
      case None => default
    }
  }
}

=== FILE: prompt.dfy ===
/** The instruction text sent to the completion service (main.py lines
    56-69): a fixed template with one line per request field. */
module RecipePrompt {
  import opened Substrings
  import opened Joining
  import opened Decimal
  import opened RecipeRequest

  /** A piece of template text: never contains a line break. */
  type Line = s: string | '\n' !in s

  const ListSeparator: Line := ", "
  const LineBreak := "\n"

  const Indent: Line := "        "
  const Role: Line := "You are a helpful AI chef. "
  const Task: Line := "Generate 3 different recipes "
  const Basis: Line := "based on the following details:"
  const Intro: Line := Indent + Role + Task + Basis
  const IngredientsLabel: Line := Indent + "- Ingredients: "
  const TimeLabel: Line := Indent + "- Time limit: "
  const TimeUnit: Line := " minutes"
  const PreferencesLabel: Line := Indent + "- Preferences: "
  const CuisinesLabel: Line := Indent + "- Cuisines: "
  const EquipmentLabel: Line := Indent + "- Available cooking equipment: "
  const SeasoningsLabel: Line := Indent + "- Available seasonings: "
  const FormatIntro: Line := Indent + "Provide recipes in JSON format with:"
  const NameField: Line := Indent + "- 'name' (recipe title)"
  const IngredientsField: Line := Indent + "- 'ingredients' (list of ingredients)"
  const InstructionsName: Line := "- 'instructions' "
  const InstructionsMeaning: Line := "(list of steps to prepare the dish)"
  const InstructionsField: Line := Indent + InstructionsName + InstructionsMeaning
  const FormatLines: seq<Line> :=
    ["", FormatIntro, NameField, IngredientsField, InstructionsField, Indent]

  /** What an empty list is replaced by, per field. */
  const NoPreferences := "None"
  const AnyCuisine := "Any"
  const AnyEquipment := "Any"
  const BasicSeasonings := "Basic"

  /** A list field: its elements joined by ", ", or the fallback when empty. */
  function Render(xs: seq<string>, fallback: string): (r: string)
    ensures '\n' !in fallback && NoneContain(xs, '\n') ==> '\n' !in r
  {
    if xs == [] then fallback else Join(xs, ListSeparator)
  }

  /** The template's lines, in order. */
  function PromptLines(inp: PromptInputs): (ls: seq<string>)
    ensures |ls| == 14
  {
    [ "",
      Intro,
      IngredientsLabel + Join(inp.ingredients, ListSeparator),
      TimeLabel + IntToDecimal(inp.timeLimit) + TimeUnit,
      PreferencesLabel + Render(inp.preferences, NoPreferences),
      CuisinesLabel + Render(inp.cuisines, AnyCuisine),
      EquipmentLabel + Render(inp.equipment, AnyEquipment),
      SeasoningsLabel + Render(inp.seasonings, BasicSeasonings)
    ] + FormatLines
  }

  /** No list value contains a line break. */
  predicate NewlineFree(inp: PromptInputs) {
    && NoneContain(inp.ingredients, '\n')
    && NoneContain(inp.preferences, '\n')
    && NoneContain(inp.cuisines, '\n')
    && NoneContain(inp.equipment, '\n')
    && NoneContain(inp.seasonings, '\n')
  }

  /** The prompt text. When no value contains a line break, splitting it at
      line breaks gives back the template's fourteen lines, one per field. */
  function Prompt(inp: PromptInputs): (p: string)
    ensures NewlineFree(inp) ==> Split(p, LineBreak) == PromptLines(inp)
  {
    LinesSplitBack(inp);
    Join(PromptLines(inp), LineBreak)
  }

  lemma LinesSplitBack(inp: PromptInputs)
    ensures NewlineFree(inp) ==>
      Split(Join(PromptLines(inp), LineBreak), LineBreak) == PromptLines(inp)
  {
    if NewlineFree(inp) {
      LinesNewlineFree(inp);
      SplitJoin(PromptLines(inp), LineBreak);
    }
  }

  lemma LinesNewlineFree(inp: PromptInputs)
    requires NewlineFree(inp)
    ensures NoneContain(PromptLines(inp), '\n')
  {
    var d := IntToDecimal(inp.timeLimit);
    forall k | 0 <= k < |d|
      ensures d[k] != '\n'
    {
      if k > 0 {
        assert IsDigit(d[k]);
      }
    }
  }

  /** The value part of a list line, read back as a list. */
  function ReadList(line: string, head: string): seq<string>
    requires |head| <= |line|
  {
    Split(line[|head|..], ListSeparator)
  }

  /** No element of `xs` contains a comma. */
  predicate CommaFree(xs: seq<string>) {
    NoneContain(xs, ',')
  }

  /** A reader of the prompt recovers the ingredient list from its line
      when no ingredient contains a comma. */
  lemma IngredientsReadBack(inp: PromptInputs)
    requires NewlineFree(inp)
    requires inp.ingredients != [] && CommaFree(inp.ingredients)
    ensures ReadList(Split(Prompt(inp), LineBreak)[2], IngredientsLabel) == inp.ingredients
  {
    var line := PromptLines(inp)[2];
    assert line[|IngredientsLabel|..] == Join(inp.ingredients, ListSeparator);
    SplitJoin(inp.ingredients, ListSeparator);
  }

  /** A rendered list field reads back as the list, or as the one-element
      list of its fallback when the list was empty. */
  lemma RenderReadBack(xs: seq<string>, fallback: string)
    requires CommaFree(xs) && ',' !in fallback
    ensures Split(Render(xs, fallback), ListSeparator) == if xs == [] then [fallback] else xs
  {
    if xs == [] {
      SplitWhole(fallback, ListSeparator);
    } else {
      SplitJoin(xs, ListSeparator);
    }
  }

  /** The optional list fields read back from their lines; an empty field
      reads as its fallback word. */
  lemma OptionalListsReadBack(inp: PromptInputs)
    requires NewlineFree(inp)
    requires CommaFree(inp.preferences) && CommaFree(inp.cuisines)
    requires CommaFree(inp.equipment) && CommaFree(inp.seasonings)
    ensures var ls := Split(Prompt(inp), LineBreak);
      && ReadList(ls[4], PreferencesLabel) == (if inp.preferences == [] then [NoPreferences] else inp.preferences)
      && ReadList(ls[5], CuisinesLabel) == (if inp.cuisines == [] then [AnyCuisine] else inp.cuisines)
      && ReadList(ls[6], EquipmentLabel) == (if inp.equipment == [] then [AnyEquipment] else inp.equipment)
      && ReadList(ls[7], SeasoningsLabel) == (if inp.seasonings == [] then [BasicSeasonings] else inp.seasonings)
  {
    var ls := PromptLines(inp);
    assert ls[4][|PreferencesLabel|..] == Render(inp.preferences, NoPreferences);
    assert ls[5][|CuisinesLabel|..] == Render(inp.cuisines, AnyCuisine);
    assert ls[6][|EquipmentLabel|..] == Render(inp.equipment, AnyEquipment);
    assert ls[7][|SeasoningsLabel|..] == Render(inp.seasonings, BasicSeasonings);
    RenderReadBack(inp.preferences, NoPreferences);
    RenderReadBack(inp.cuisines, AnyCuisine);
    RenderReadBack(inp.equipment, AnyEquipment);
    RenderReadBack(inp.seasonings, BasicSeasonings);
  }

  /** The time-limit line carries the limit as a decimal a reader can parse
      back. */
  lemma TimeLimitReadBack(inp: PromptInputs)
    requires NewlineFree(inp)
    ensures var line := Split(Prompt(inp), LineBreak)[3];
      && |TimeLabel| + 1 + |TimeUnit| <= |line|
      && StartsWith(line, TimeLabel)
      && line[|line| - |TimeUnit|..] == TimeUnit
      && SignedValue(line[|TimeLabel|..|line| - |TimeUnit|]) == inp.timeLimit
  {
    var d := IntToDecimal(inp.timeLimit);
    var line := PromptLines(inp)[3];
    assert line == TimeLabel + d + TimeUnit;
    assert line[|TimeLabel|..|line| - |TimeUnit|] == d;
    assert line[..|TimeLabel|] == TimeLabel;
    IntRoundTrip(inp.timeLimit);
  }

  /** A request body that leaves every optional field out yields a prompt
      announcing 40 minutes, no preferences, any cuisine, any equipment and
      basic seasonings. */
  lemma MissingFieldsPrompt(req: Request)
    requires req.timeLimit.None? && req.preferences.None? && req.cuisines.None?
    requires req.cookingEquipment.None? && req.seasonings.None?
    requires NoneContain(Normalise(req).ingredients, '\n')
    ensures var ls := Split(Prompt(Normalise(req)), LineBreak);
      && ls[3] == TimeLabel + "40" + TimeUnit
      && ls[4] == PreferencesLabel + "None"
      && ls[5] == CuisinesLabel + "Any"
      && ls[6] == EquipmentLabel + "Any"
      && ls[7] == SeasoningsLabel + "Basic"
  {
    var inp := Normalise(req);
    assert NewlineFree(inp);
    assert inp.timeLimit == DefaultTimeLimit;
    DefaultFieldLines(inp);
    var ls := PromptLines(inp);
    assert Split(Prompt(inp), LineBreak) == ls;
  }

  /** The lines of the optional fields when every one takes its default. */
  lemma DefaultFieldLines(inp: PromptInputs)
    requires inp.timeLimit == DefaultTimeLimit
    requires inp.preferences == inp.cuisines == inp.equipment == inp.seasonings == []
    ensures var ls := PromptLines(inp);
      && ls[3] == TimeLabel + "40" + TimeUnit
      && ls[4] == PreferencesLabel + "None"
      && ls[5] == CuisinesLabel + "Any"
      && ls[6] == EquipmentLabel + "Any"
      && ls[7] == SeasoningsLabel + "Basic"
  {
    DefaultTimeRendered();
  }

  lemma DefaultTimeRendered()
    ensures IntToDecimal(DefaultTimeLimit) == "40"
  {
    assert NatToDecimal(4) == "4";
  }
}

=== FILE: request.dfy ===
/** The JSON request body of `POST /get_recipe` and its normalisation into
    the values the prompt is built from (main.py lines 36-45). */
module RecipeRequest {
  import opened Optional

  /** One `selectedTags` entry: an ingredient name and its selected flag.
      A sequence of these, with distinct names, stands for the
      insertion-ordered JSON object. */
  type Tag = (string, bool)

  /** The fields the handler reads; `None` is a key absent from the body. */
  datatype Request = Request(
    selectedTags: Option<seq<Tag>>,
    cookingEquipment: Option<seq<string>>,
    cuisines: Option<seq<string>>,
    preferences: Option<seq<string>>,
    seasonings: Option<seq<string>>,
    timeLimit: Option<int>)

  /** The values that enter the prompt, after defaults are applied. */
  datatype PromptInputs = PromptInputs(
    ingredients: seq<string>,
    timeLimit: int,
    preferences: seq<string>,
    cuisines: seq<string>,
    equipment: seq<string>,
    seasonings: seq<string>)

  const DefaultTimeLimit := 40

  /** The tag names, in order. */
  function Names(tags: seq<Tag>): seq<string> {
    seq(|tags|, i requires 0 <= i < |tags| => tags[i].0)
  }

  /** A JSON object has each key once. */
  predicate DistinctNames(tags: seq<Tag>) {
    forall i, j :: 0 <= i < j < |tags| ==> tags[i].0 != tags[j].0
  }

  predicate Distinct(xs: seq<string>) {
    forall i, j :: 0 <= i < j < |xs| ==> xs[i] != xs[j]
  }

  /** `xs` is `ys` with some elements left out, order kept. */
  predicate IsSubsequence(xs: seq<string>, ys: seq<string>)
    decreases |ys|
  {
    if xs == [] then true
    else if ys == [] then false
    else (xs[0] == ys[0] && IsSubsequence(xs[1..], ys[1..])) || IsSubsequence(xs, ys[1..])
  }

  /** The names whose flag is set, in tag order: a name is in the result
      exactly when it is paired with `true`, and an empty result means no
      flag was set. */
  function SelectedIngredients(tags: seq<Tag>): (r: seq<string>)
    ensures |r| <= |tags|
    ensures forall x :: x in r <==> (x, true) in tags
    decreases |tags|
  {
    if tags == [] then []
    else
      var rest := SelectedIngredients(tags[1..]);
      assert forall x :: (x, true) in tags <==> (x, true) == tags[0] || (x, true) in tags[1..];
      if tags[0].1 then [tags[0].0] + rest else rest
  }

  /** Selection distributes over concatenation of tag lists, so the result
      keeps the tags' relative order. */
  lemma {:induction false} SelectedAppend(a: seq<Tag>, b: seq<Tag>)
    ensures SelectedIngredients(a + b) == SelectedIngredients(a) + SelectedIngredients(b)
    decreases |a|
  {
    if a == [] {
      assert a + b == b;
    } else {
      assert (a + b)[0] == a[0];
      assert (a + b)[1..] == a[1..] + b;
      SelectedAppend(a[1..], b);
    }
  }

  /** The selected ingredients are a subsequence of the tag names. */
  lemma {:induction false} SelectedIsSubsequence(tags: seq<Tag>)
    ensures IsSubsequence(SelectedIngredients(tags), Names(tags))
    decreases |tags|
  {
    if tags != [] {
      SelectedIsSubsequence(tags[1..]);
      assert Names(tags)[1..] == Names(tags[1..]);
      var r := SelectedIngredients(tags);
      if tags[0].1 {
        assert r[1..] == SelectedIngredients(tags[1..]);
      }
    }
  }

  /** When no flag is set nothing is selected. */
  lemma {:induction false} NoFlagNothingSelected(tags: seq<Tag>)
    requires forall i :: 0 <= i < |tags| ==> !tags[i].1
    ensures SelectedIngredients(tags) == []
    decreases |tags|
  {
    if tags != [] {
      NoFlagNothingSelected(tags[1..]);
    }
  }

  /** Distinct tag names give distinct ingredients. */
  lemma {:induction false} SelectedDistinct(tags: seq<Tag>)
    requires DistinctNames(tags)
    ensures Distinct(SelectedIngredients(tags))
    decreases |tags|
  {
    if tags != [] {
      var rest := SelectedIngredients(tags[1..]);
      assert DistinctNames(tags[1..]);
      SelectedDistinct(tags[1..]);
      if tags[0].1 {
        assert tags[0].0 !in rest;
        var r := [tags[0].0] + rest;
        forall i, j | 0 <= i < j < |r|
          ensures r[i] != r[j]
        {
          if i > 0 {
            assert r[i] == rest[i - 1] && r[j] == rest[j - 1];
          } else {
            assert r[j] in rest;
          }
        }
      }
    }
  }

  /** Missing fields take the handler's defaults: empty lists, an empty tag
      object and a 40-minute time limit; present fields are used as given. */
  function Normalise(req: Request): (inp: PromptInputs)
    ensures req.selectedTags.None? ==> inp.ingredients == []
    ensures req.selectedTags.Some? ==> inp.ingredients == SelectedIngredients(req.selectedTags.value)
    ensures req.timeLimit.None? ==> inp.timeLimit == DefaultTimeLimit
    ensures req.timeLimit.Some? ==> inp.timeLimit == req.timeLimit.value
    ensures inp.preferences == (if req.preferences.Some? then req.preferences.value else [])
    ensures inp.cuisines == (if req.cuisines.Some? then req.cuisines.value else [])
    ensures inp.equipment == (if req.cookingEquipment.Some? then req.cookingEquipment.value else [])
    ensures inp.seasonings == (if req.seasonings.Some? then req.seasonings.value else [])
  {
    PromptInputs(
      SelectedIngredients(req.selectedTags.GetOr([])),
      req.timeLimit.GetOr(DefaultTimeLimit),
      req.preferences.GetOr([]),
      req.cuisines.GetOr([]),
      req.cookingEquipment.GetOr([]),
      req.seasonings.GetOr([]))
  }
}

=== FILE: substrings.dfy ===
/** Prefix and infix tests on strings, and removal of every occurrence of a
    pattern, scanning left to right as Python's `str.replace(p, "")` does. */
module Substrings {

  /** `p` is a prefix of `s`. */
  predicate StartsWith(s: string, p: string) {
    |p| <= |s| && s[..|p|] == p
  }

  /** `p` occurs somewhere in `s` (Python's `p in s`). */
  predicate HasInfix(s: string, p: string)
    decreases |s|
  {
    StartsWith(s, p) || (|s| > 0 && HasInfix(s[1..], p))
  }

  /** Deletes every non-overlapping occurrence of `p`, leftmost first. */
  function RemoveAll(s: string, p: string): (r: string)
    requires |p| > 0
    ensures |r| <= |s|
    ensures |r| == |s| <==> !HasInfix(s, p)
    ensures !HasInfix(s, p) ==> r == s
    decreases |s|
  {
    if s == [] then []
    else if StartsWith(s, p) then RemoveAll(s[|p|..], p)
    else [s[0]] + RemoveAll(s[1..], p)
  }

  /** A string with no occurrence of `p` has no suffix starting with `p`. */
  lemma {:induction false} NoInfixNoStart(s: string, p: string, k: nat)
    requires !HasInfix(s, p)
    requires k <= |s|
    ensures !StartsWith(s[k..], p)
    decreases k
  {
    if k > 0 {
      assert s[1..][k - 1..] == s[k..];
      NoInfixNoStart(s[1..], p, k - 1);
    }
  }

  /** An occurrence inside a prefix of `s` is an occurrence in `s`. */
  lemma {:induction false} InfixOfPrefix(s: string, j: nat, p: string)
    requires j <= |s|
    requires HasInfix(s[..j], p)
    ensures HasInfix(s, p)
    decreases |s|
  {
    if !StartsWith(s[..j], p) {
      assert s[..j][1..] == s[1..][..j - 1];
      InfixOfPrefix(s[1..], j - 1, p);
    }
  }

  /** An occurrence inside a suffix of `s` is an occurrence in `s`. */
  lemma {:induction false} InfixOfSuffix(s: string, i: nat, p: string)
    requires i <= |s|
    requires HasInfix(s[i..], p)
    ensures HasInfix(s, p)
    decreases i
  {
    if i > 0 {
      assert s[1..][i - 1..] == s[i..];
      InfixOfSuffix(s[1..], i - 1, p);
    }
  }

  /** A slice of a string without `p` is itself without `p`. */
  lemma InfixFreeSlice(s: string, i: nat, j: nat, p: string)
    requires i <= j <= |s|
    requires !HasInfix(s, p)
    ensures !HasInfix(s[i..j], p)
  {
    if HasInfix(s[i..j], p) {
      assert s[i..j] == s[i..][..j - i];
      InfixOfPrefix(s[i..], j - i, p);
      InfixOfSuffix(s, i, p);
    }
  }

  /** Wherever the longer pattern `q` occurs, its prefix `p` occurs too. */
  lemma {:induction false} InfixOfLonger(s: string, p: string, q: string)
    requires StartsWith(q, p)
    requires HasInfix(s, q)
    ensures HasInfix(s, p)
    decreases |s|
  {
    if StartsWith(s, q) {
      assert s[..|p|] == s[..|q|][..|p|];
    } else {
      InfixOfLonger(s[1..], p, q);
    }
  }

  /** Removal leaves a leading stretch untouched when no occurrence starts in it. */
  lemma {:induction false} RemoveAllKeepsPrefix(a: string, b: string, p: string)
    requires |p| > 0
    requires forall k :: 0 <= k < |a| ==> !StartsWith((a + b)[k..], p)
    ensures RemoveAll(a + b, p) == a + RemoveAll(b, p)
    decreases |a|
  {
    if a == [] {
      assert a + b == b;
    } else {
      assert (a + b)[0..] == a + b;
      assert (a + b)[1..] == a[1..] + b;
      forall k | 0 <= k < |a[1..]|
        ensures !StartsWith((a[1..] + b)[k..], p)
      {
        assert (a[1..] + b)[k..] == (a + b)[k + 1..];
      }
      RemoveAllKeepsPrefix(a[1..], b, p);
    }
  }

  /** The leftmost occurrence is deleted and deletion resumes right after
      it; with `RemoveAll`'s contract for pattern-free text this fixes the
      result on every input. */
  lemma RemoveLeftmost(x: string, y: string, p: string)
    requires |p| > 0
    requires forall k :: 0 <= k < |x| ==> !StartsWith((x + p + y)[k..], p)
    ensures RemoveAll(x + p + y, p) == x + RemoveAll(y, p)
  {
    assert x + p + y == x + (p + y);
    RemoveAllKeepsPrefix(x, p + y, p);
    assert (p + y)[..|p|] == p;
    assert (p + y)[|p|..] == y;
  }
}

=== FILE: whitespace.dfy ===
/** Python's `str.strip()` with no argument: removes leading and trailing
    characters for which `str.isspace()` holds.

    The trimming functions and their lemmas take the whitespace test `ws` as
    a parameter, so that nothing in them depends on which characters count;
    `Strip` instantiates them with CPython's set. */
module Whitespace {

  /** The code points CPython treats as whitespace, as inclusive ranges:
      the ASCII controls TAB..CR and FS..US with SPACE, NEL, NO-BREAK SPACE,
      OGHAM SPACE MARK, EN QUAD..HAIR SPACE, LINE and PARAGRAPH SEPARATOR,
      NARROW NO-BREAK SPACE, MEDIUM MATHEMATICAL SPACE and IDEOGRAPHIC
      SPACE. */
  const SpaceRanges: seq<(int, int)> := [
    (0x09, 0x0D), (0x1C, 0x20), (0x85, 0x85), (0xA0, 0xA0), (0x1680, 0x1680),
    (0x2000, 0x200A), (0x2028, 0x2029), (0x202F, 0x202F), (0x205F, 0x205F),
    (0x3000, 0x3000)]

  predicate InRanges(n: int, ranges: seq<(int, int)>)
    decreases |ranges|
  {
    |ranges| > 0 && (ranges[0].0 <= n <= ranges[0].1 || InRanges(n, ranges[1..]))
  }

  /** Python's `str.isspace()` on one character. */
  predicate IsSpace(c: char) {
    InRanges(c as int, SpaceRanges)
  }

  /** A code point in none of the ranges is not in their union. */
  lemma {:induction false} OutsideRanges(n: int, ranges: seq<(int, int)>)
    requires forall k :: 0 <= k < |ranges| ==> !(ranges[k].0 <= n <= ranges[k].1)
    ensures !InRanges(n, ranges)
    decreases |ranges|
  {
    if |ranges| > 0 {
      OutsideRanges(n, ranges[1..]);
    }
  }

  lemma NewlineIsSpace()
    ensures IsSpace('\n')
  {
  }

  lemma BacktickIsNotSpace()
    ensures !IsSpace('`')
  {
    OutsideRanges('`' as int, SpaceRanges);
  }

  predicate AllIn(s: string, ws: char -> bool) {
    forall i :: 0 <= i < |s| ==> ws(s[i])
  }

  /** Neither end of `s` satisfies `ws`. */
  predicate Trimmed(s: string, ws: char -> bool) {
    s == [] || (!ws(s[0]) && !ws(s[|s| - 1]))
  }

  /** `str.lstrip()`: drops whitespace from the front. */
  function TrimLeft(s: string, ws: char -> bool): string
    decreases |s|
  {
    if |s| > 0 && ws(s[0]) then TrimLeft(s[1..], ws) else s
  }

  /** `str.rstrip()`: drops whitespace from the back. */
  function TrimRight(s: string, ws: char -> bool): string
    decreases |s|
  {
    if |s| > 0 && ws(s[|s| - 1]) then TrimRight(s[..|s| - 1], ws) else s
  }

  /** `TrimLeft` returns the longest suffix that does not start with
      whitespace: what it drops is all whitespace. */
  lemma {:induction false} TrimLeftParts(s: string, ws: char -> bool)
    ensures |TrimLeft(s, ws)| <= |s|
    ensures TrimLeft(s, ws) == s[|s| - |TrimLeft(s, ws)|..]
    ensures AllIn(s[..|s| - |TrimLeft(s, ws)|], ws)
    ensures TrimLeft(s, ws) == [] || !ws(TrimLeft(s, ws)[0])
    decreases |s|
  {
    if |s| > 0 && ws(s[0]) {
      TrimLeftParts(s[1..], ws);
      var r := TrimLeft(s[1..], ws);
      assert s[1..][..|s| - 1 - |r|] == s[1..|s| - |r|];
      assert s[1..][|s| - 1 - |r|..] == s[|s| - |r|..];
    }
  }

  /** `TrimRight` returns the longest prefix that does not end with
      whitespace: what it drops is all whitespace. */
  lemma {:induction false} TrimRightParts(s: string, ws: char -> bool)
    ensures |TrimRight(s, ws)| <= |s|
    ensures TrimRight(s, ws) == s[..|TrimRight(s, ws)|]
    ensures AllIn(s[|TrimRight(s, ws)|..], ws)
    ensures TrimRight(s, ws) == [] || !ws(TrimRight(s, ws)[|TrimRight(s, ws)| - 1])
    decreases |s|
  {
    if |s| > 0 && ws(s[|s| - 1]) {
      var t := s[..|s| - 1];
      TrimRightParts(t, ws);
      var r := TrimRight(t, ws);
      assert t[..|r|] == s[..|r|];
      assert t[|r|..] + [s[|s| - 1]] == s[|r|..];
    }
  }

  /** The whitespace `str.strip()` removes from the front. */
  function LeadingSpace(s: string, ws: char -> bool): string
  {
    var l := TrimLeft(s, ws);
    TrimLeftParts(s, ws);
    s[..|s| - |l|]
  }

  /** The whitespace `str.strip()` removes from the back. */
  function TrailingSpace(s: string, ws: char -> bool): string
  {
    var l := TrimLeft(s, ws);
    TrimRightParts(l, ws);
    l[|TrimRight(l, ws)|..]
  }

  /** `str.strip()` with the whitespace test `ws`: trims the front, then
      the back. */
  function StripBy(s: string, ws: char -> bool): string
  {
    TrimRight(TrimLeft(s, ws), ws)
  }

  /** Python's `str.strip()`. */
  function Strip(s: string): string
  {
    StripBy(s, IsSpace)
  }

  /** What stripping leaves: neither end is whitespace, and the input is
      whitespace, then the result, then whitespace. */
  lemma StripParts(s: string, ws: char -> bool)
    ensures Trimmed(StripBy(s, ws), ws)
    ensures AllIn(LeadingSpace(s, ws), ws) && AllIn(TrailingSpace(s, ws), ws)
    ensures s == LeadingSpace(s, ws) + StripBy(s, ws) + TrailingSpace(s, ws)
  {
    var l := TrimLeft(s, ws);
    var r := TrimRight(l, ws);
    StripEnds(s, l, r, ws);
    TrimLeftParts(s, ws);
    TrimRightParts(l, ws);
    var a, b := s[..|s| - |l|], l[|r|..];
    assert s == a + l by {
      SplitAt(s, |s| - |l|);
    }
    assert l == r + b by {
      SplitAt(l, |r|);
    }
    Assoc(a, r, b);
  }

  /** Regrouping and splitting, kept as lemmas so that `StripParts` sees
      only these facts and not the whole sequence theory at once. */
  lemma Assoc(a: string, b: string, c: string)
    ensures a + (b + c) == a + b + c
  {
  }

  lemma SplitAt(s: string, k: nat)
    requires k <= |s|
    ensures s == s[..k] + s[k..]
  {
  }

  /** Neither end of the stripped text is whitespace. */
  lemma StripEnds(s: string, l: string, r: string, ws: char -> bool)
    requires l == TrimLeft(s, ws) && r == TrimRight(l, ws)
    ensures Trimmed(r, ws)
  {
    TrimLeftParts(s, ws);
    TrimRightParts(l, ws);
    if r != [] {
      assert r[0] == l[0];
    }
  }

  /** Leading whitespace does not change what `TrimLeft` returns. */
  lemma {:induction false} TrimLeftSkips(x: string, z: string, ws: char -> bool)
    requires AllIn(x, ws)
    ensures TrimLeft(x + z, ws) == TrimLeft(z, ws)
    decreases |x|
  {
    if x != [] {
      assert (x + z)[1..] == x[1..] + z;
      TrimLeftSkips(x[1..], z, ws);
    } else {
      assert x + z == z;
    }
  }

  /** Trailing whitespace does not change what `TrimRight` returns. */
  lemma {:induction false} TrimRightSkips(z: string, y: string, ws: char -> bool)
    requires AllIn(y, ws)
    ensures TrimRight(z + y, ws) == TrimRight(z, ws)
    decreases |y|
  {
    if y != [] {
      var y' := y[..|y| - 1];
      assert (z + y)[..|z + y| - 1] == z + y';
      TrimRightSkips(z, y', ws);
    } else {
      assert z + y == z;
    }
  }

  /** The converse of `StripBy`'s contract: a trimmed `r` with only
      whitespace around it is exactly what stripping returns. */
  lemma StripUnique(x: string, r: string, y: string, ws: char -> bool)
    requires AllIn(x, ws) && AllIn(y, ws) && Trimmed(r, ws)
    ensures StripBy(x + r + y, ws) == r
  {
    assert x + r + y == x + (r + y);
    TrimLeftSkips(x, r + y, ws);
    if r == [] {
      assert r + y == y + [];
      TrimLeftSkips(y, [], ws);
    } else {
      assert TrimLeft(r + y, ws) == r + y;
      TrimRightSkips(r, y, ws);
    }
  }

  /** A trimmed string is its own stripped form. */
  lemma StripTrimmed(s: string, ws: char -> bool)
    requires Trimmed(s, ws)
    ensures StripBy(s, ws) == s
  {
    assert [] + s + [] == s;
    StripUnique([], s, [], ws);
  }

  /** Stripping is idempotent. */
  lemma StripIdempotent(s: string, ws: char -> bool)
    ensures StripBy(StripBy(s, ws), ws) == StripBy(s, ws)
  {
    StripParts(s, ws);
    StripTrimmed(StripBy(s, ws), ws);
  }

  lemma AllInConcat(a: string, b: string, ws: char -> bool)
    requires AllIn(a, ws) && AllIn(b, ws)
    ensures AllIn(a + b, ws)
  {
    forall k | 0 <= k < |a + b|
      ensures ws((a + b)[k])
    {
      if k < |a| {
        assert (a + b)[k] == a[k];
      } else {
        assert (a + b)[k] == b[k - |a|];
      }
    }
  }

  /** Whitespace added around a text is stripped away with the text's own. */
  lemma StripPadded(x: string, t: string, y: string, ws: char -> bool)
    requires AllIn(x, ws) && AllIn(y, ws)
    ensures StripBy(x + t + y, ws) == StripBy(t, ws)
  {
    var a, b := LeadingSpace(t, ws), TrailingSpace(t, ws);
    var r := StripBy(t, ws);
    StripParts(t, ws);
    assert x + (a + r + b) + y == (x + a) + r + (b + y);
    AllInConcat(x, a, ws);
    AllInConcat(b, y, ws);
    StripUnique(x + a, r, b + y, ws);
  }
}
